=== FILE: README.md ===
# A verified model of the sales-dashboard user store

The dashboard keeps one table of users: administrators, consultors and clients.
A client may point at the consultor that looks after it (`consultorId`). Three
HTTP endpoints and one form work on that table:

- `/api/users` creates a user, with an optional roster of clients. It patches a
  user and can replace that user's roster. It deletes users.
- `/api/clients` lists clients. The list goes through an optional filter by
  consultor and by creation-date range, is newest first, and comes with two
  counts that ignore the filter.
- `/api/consultores` lists every consultor as `{ id, name, email }`, in name
  order.
- The user form masks phone, CPF and CEP input. It offers only clients without a
  consultor, and a checkbox toggles each client in the selection. On submit it
  assembles the body it posts: the address with its complement, and the age
  parsed with `parseInt`.

The model is functional. The table is a `map<Id, User>`. Each write handler is
a pure function from a store and a request body to a reply and the next store
(`Handled`). The ORM calls (`create`, `update`, `updateMany`, `delete`) are
modelled by the effect they have on that map and by the errors they raise: a
unique violation, a missing record, or a value the schema refuses. The two
listings are methods that select by a filter and order by selection sort. The
form helpers are pure functions on `seq<char>`.

Files:

| file | module | models |
|---|---|---|
| model.dfy | Model | users, roles, the store, replies and status codes |
| prisma.dfy | Prisma | the ORM calls the handlers make |
| users_route.dfy | UsersRoute | `POST`, `PUT`, `DELETE` of `app/api/users/route.ts` |
| collections.dfy | Collections | set and sequence facts the listings use |
| clients_route.dfy | ClientsRoute | `GET` of `app/api/clients/route.ts` |
| consultores_route.dfy | ConsultoresRoute | `GET` of `app/api/consultores/route.ts` |
| masks.dfy | Masks | `formatPhone`, `formatCPF`, `formatCEP` and the regex rewrite they use |
| parse_int.dfy | IntParsing | JavaScript `parseInt` without a radix |
| usuarios_page.dfy | UsuariosPage | the client filter, `handleClientToggle`, and the body `handleSubmit` posts |

Some things the model takes from the outside, as parameters:

- the id the database generates for a new row;
- the clock (`now`, in milliseconds);
- what the database does to references when a consultor is deleted (`OnDelete`).

Query-string dates are whole day numbers. The start of day `d` is
`d * 86400000` and its end is `d * 86400000 + 86399999`.

## Model

| member | source | states |
|---|---|---|
| Model.Status | app/api/users/route.ts:45-58 | a success is 200; a missing field and a duplicate email are 400; every other failure is 500 |
| Prisma.Create | app/api/users/route.ts:16-26 | create fails with a validation error exactly when name, email or a valid role is missing; it fails with a unique violation exactly when the email or the id is taken; otherwise it adds exactly one row and leaves every other row alone and emails unique; the row holds every given field, each optional field left out is null, and the row has no consultor and is stamped `now` |
| Prisma.Update | app/api/users/route.ts:73-84 | update fails on null for a required column or an unknown role, fails on an unknown id, and fails on an email another row uses; otherwise it changes only that row; a supplied field is written, `null` clears an optional column, a field absent from the body keeps its stored value, and `consultorId` and `createdAt` never change |
| Prisma.LinkToConsultor | app/api/users/route.ts:29-38 | `updateMany` over `id in ids` points exactly the listed rows that exist at the consultor; it changes nothing else and adds no row |
| Prisma.UnlinkFromConsultor | app/api/users/route.ts:87-94 | afterwards no row points at the consultor; the rows that did lose only their reference, and all other rows are untouched |
| Prisma.Delete | app/api/users/route.ts:143-145 | delete fails exactly on an unknown id; otherwise that id is gone, no other row disappears, and each remaining row changes at most by losing a reference to the deleted id |
| UsersRoute.Post | app/api/users/route.ts:4-60 | 400 with the required-fields message exactly when name, email or role is falsy; 400 with the message "Email já cadastrado" exactly when the create would collide; the generic 500 exactly when the role is not one of the enum's; success exactly otherwise; on any failure the store is unchanged; on success exactly the new id is added, and the reply carries the row as created, holding the given fields and no consultor |
| UsersRoute.Put | app/api/users/route.ts:62-129 | 400 exactly when `id` is falsy; the generic 500, with the store unchanged, exactly on an unknown id, a `null` required field or an unknown role; 400 with the message "Email já cadastrado" exactly on another row's email; success exactly otherwise; on success no row is added or removed, and when the roster is not replaced every other row stays as it was; and the reply is the row as patched: supplied fields written, absent ones kept, its consultor as before the roster change |
| UsersRoute.Delete | app/api/users/route.ts:131-158 | 400 exactly when the `id` parameter is missing or empty; 500 with no change on an unknown id; success exactly on an existing id, which is then absent while every other id stays |
| UsersRoute.ReplaceRoster | app/api/users/route.ts:86-107 | clearing and then setting the roster leaves it equal to the listed ids that exist; a former member that is not listed gets `consultorId` null; only `consultorId` changes, and only on the listed rows and the old roster |
| UsersRoute.PostAssignsRoster | app/api/users/route.ts:28-39 | a consultor POST with clients points every listed existing row at the new user, whatever that row's role or previous consultor, and leaves every other row as it was; the new user's roster is the listed rows that exist, plus any row that already held the fresh id |
| UsersRoute.FreshIdHasNoRoster | app/api/users/route.ts:16-26 | when every reference resolves, no row holds an id the store does not have, so a created user starts with an empty roster |
| UsersRoute.PostWithoutRosterOnlyAdds | app/api/users/route.ts:28 | a POST that is not a consultor with a non-empty list only adds the new user, with no consultor, and the roster of the fresh id is what it was |
| UsersRoute.PutRosterIsExactlyListed | app/api/users/route.ts:86-107 | after a consultor PUT with `clientIds`, a row points at the consultor exactly when its id is listed |
| UsersRoute.PutRosterFrame | app/api/users/route.ts:86-107 | a roster PUT leaves every row outside the list and the old roster untouched, sets `consultorId` to null on every former member that is not listed, and changes only `consultorId` on any other row |
| UsersRoute.PutEmptyListClearsRoster | app/api/users/route.ts:87-96 | a consultor PUT with `clientIds: []` empties the roster: every row that pointed at the consultor now has `consultorId` null |
| UsersRoute.PutWithoutRosterKeepsLinks | app/api/users/route.ts:86 | when the request's role is not the consultor spelling, or `clientIds` is absent, no `consultorId` changes |
| UsersRoute.PostKeepsRefsResolved | app/api/users/route.ts:28-39 | POST never creates a reference to a row that does not exist |
| UsersRoute.ReplaceRosterKeepsRefsResolved | app/api/users/route.ts:86-107 | clearing and re-linking the roster of an existing consultor leaves every `consultorId` pointing at an existing row |
| UsersRoute.PutKeepsRefsResolved | app/api/users/route.ts:86-107 | PUT never creates a reference to a row that does not exist |
| UsersRoute.DeleteSetNullKeepsRefsResolved | app/api/users/route.ts:143-145 | with nulling references, DELETE leaves no dangling consultor reference |
| ClientsRoute.BuildWhere | app/api/clients/route.ts:12-33 | the filter always asks for clients; it restricts the consultor exactly when a non-empty one is given; it restricts the date exactly when both dates are given, from the first millisecond of the start day to the last millisecond of the end day |
| ClientsRoute.OrderNewestFirst | app/api/clients/route.ts:47-49 | the ids come once each, all of them, with `createdAt` non-increasing |
| ClientsRoute.ListClients | app/api/clients/route.ts:4-77 | `clients` is exactly the selected rows, once each, newest first, each with its consultor's projection; `total` is its length; `totalClients` counts all clients; `totalLast7Days` counts the clients of the last seven days; neither count exceeds `totalClients` |
| ClientsRoute.OnlyClientsSelected | app/api/clients/route.ts:12-14 | only users with the client role are listed |
| ClientsRoute.ConsultorFilter | app/api/clients/route.ts:17-19 | a non-empty `consultorId` keeps exactly the clients pointing at it; a missing or empty one is no restriction |
| ClientsRoute.HalfRangeIgnored | app/api/clients/route.ts:22 | a single date is ignored |
| ClientsRoute.DateRangeInclusive | app/api/clients/route.ts:23-32 | with both dates, a client passes exactly when it was created within the two days, both ends included |
| ClientsRoute.NoParametersSelectsAllClients | app/api/clients/route.ts:12-14 | with no parameters every client is listed |
| ConsultoresRoute.OrderByName | app/api/consultores/route.ts:15-17 | the ids come once each, all of them, with names non-decreasing |
| ConsultoresRoute.ListConsultores | app/api/consultores/route.ts:4-20 | every consultor appears exactly once and nothing else does; each entry is the row's id, name and email; the entries are in ascending name order |
| Masks.Digits | app/usuarios/page.tsx:108 | stripping non-digits leaves only digits and never lengthens the text |
| Masks.DigitsAppend | app/usuarios/page.tsx:108 | stripping a concatenation strips each part: the digits keep their order |
| Masks.DigitsOfDigits | app/usuarios/page.tsx:108 | a string of digits is kept whole |
| Masks.NoDigits | app/usuarios/page.tsx:108 | a string without digits strips to nothing |
| Masks.ReplaceFirst | app/usuarios/page.tsx:110 | a non-global `String.replace` with a pattern of consecutive digit groups: the first run of enough digits is rewritten, anything else is kept; its properties are carried by `FirstRun` and `ReplaceOnDigits` |
| Masks.FirstRun | app/usuarios/page.tsx:110 | a non-global match starts at the leftmost position with enough consecutive digits, and there is none when no position has them |
| Masks.ReplaceOnDigits | app/usuarios/page.tsx:110 | on a string of digits, the rewrite changes the first `n` digits when there are enough of them and leaves a shorter string as it is |
| Masks.FormatPhone | app/usuarios/page.tsx:107-113 | `formatPhone`: strip non-digits, then the ten-digit mask up to ten digits and the eleven-digit mask beyond; its properties are `FormatPhoneShape`, `PhoneKeepsDigits` and `PhoneIdempotent` |
| Masks.FormatCPF | app/usuarios/page.tsx:115-118 | `formatCPF`: strip non-digits, then the CPF mask; its properties are `FormatCPFShape`, `CPFKeepsDigits` and `CPFIdempotent` |
| Masks.FormatCEP | app/usuarios/page.tsx:120-123 | `formatCEP`: strip non-digits, then the CEP mask; its properties are `FormatCEPShape`, `CEPKeepsDigits` and `CEPIdempotent` |
| Masks.FormatPhoneShape | app/usuarios/page.tsx:107-113 | fewer than ten digits are returned bare; exactly ten become `(DD) DDDD-DDDD`; eleven or more become `(DD) DDDDD-DDDD` followed by the other digits |
| Masks.FormatCPFShape | app/usuarios/page.tsx:115-118 | eleven or more digits become `DDD.DDD.DDD-DD` followed by the other digits; fewer are returned bare |
| Masks.FormatCEPShape | app/usuarios/page.tsx:120-123 | eight or more digits become `DDDDD-DDD` followed by the other digits; fewer are returned bare |
| Masks.PhoneKeepsDigits | app/usuarios/page.tsx:107-113 | the digits of the masked phone are the digits typed |
| Masks.CPFKeepsDigits | app/usuarios/page.tsx:115-118 | the digits of the masked CPF are the digits typed |
| Masks.CEPKeepsDigits | app/usuarios/page.tsx:120-123 | the digits of the masked CEP are the digits typed |
| Masks.PhoneIdempotent | app/usuarios/page.tsx:107-113 | masking a masked phone changes nothing |
| Masks.CPFIdempotent | app/usuarios/page.tsx:115-118 | masking a masked CPF changes nothing |
| Masks.CEPIdempotent | app/usuarios/page.tsx:120-123 | masking a masked CEP changes nothing |
| IntParsing.ParseInt | app/usuarios/page.tsx:72 | `parseInt(s)` with no radix: skip white space, one sign, `0x` selects base sixteen, the longest digit run is the value, none is NaN; its properties are `ParseDecimal` and `NoDigitIsNaN` |
| IntParsing.ParseDecimal | app/usuarios/page.tsx:72 | `parseInt` reads back a decimal number with optional white space and sign in front, ignoring any text after it that does not start with a digit (`"28 anos"` is 28), except an `x` after a lone `0`, which starts a hexadecimal prefix |
| IntParsing.NoDigitIsNaN | app/usuarios/page.tsx:72 | text without any digit parses to NaN |
| UsuariosPage.Offered | app/usuarios/page.tsx:45-47 | a missing `clients` field offers nothing; otherwise a row is offered exactly when it was listed and its `consultorId` is falsy |
| UsuariosPage.OfferedAreUnlinked | app/usuarios/page.tsx:40-49 | fed the unfiltered listing, the form offers exactly the clients whose `consultorId` is null or empty; a client pointing at a deleted row or at a non-consultor is not offered |
| UsuariosPage.Without | app/usuarios/page.tsx:101 | the filter keeps exactly the other ids and removes every copy of the one toggled |
| UsuariosPage.WithoutDistinct | app/usuarios/page.tsx:101 | removing never creates a duplicate |
| UsuariosPage.Toggle | app/usuarios/page.tsx:97-104 | the toggled id's membership flips, every other id's membership stays, and a duplicate-free selection stays duplicate-free |
| UsuariosPage.ToggleTwice | app/usuarios/page.tsx:97-104 | toggling twice selects the same ids, and gives back the very list when the id was not selected |
| UsuariosPage.Address | app/usuarios/page.tsx:73 | the street, then `", "` and the complement when one was typed; `SubmissionStored` states it reaches the created row |
| UsuariosPage.Age | app/usuarios/page.tsx:72 | `null` for an empty age, otherwise `parseInt` of it with NaN sent as `null`; its properties are `AgeReadsTypedNumber` and `AgeWithoutDigitIsNull` |
| UsuariosPage.Submission | app/usuarios/page.tsx:67-76 | the body `handleSubmit` posts; its properties are `SubmissionIgnoresCepAndEstado`, `SubmissionRefusedIff`, `SubmissionStatus`, `SubmissionAssignsIff` and `SubmissionStored` |
| UsuariosPage.SubmissionIgnoresCepAndEstado | app/usuarios/page.tsx:67-76 | the CEP and state inputs do not affect the posted body |
| UsuariosPage.AgeReadsTypedNumber | app/usuarios/page.tsx:72 | a typed number is posted as that number, sign included, whatever non-digit text follows it (except an `x` after a lone `0`) |
| UsuariosPage.AgeWithoutDigitIsNull | app/usuarios/page.tsx:72 | an empty age, or one without digits, is posted as `null` |
| UsuariosPage.SubmissionRefusedIff | app/usuarios/page.tsx:67-76 | the endpoint answers with the required-fields 400 ("Nome, email e tipo são obrigatórios") exactly when name, email or type is empty |
| UsuariosPage.SubmissionStatus | app/api/users/route.ts:9-58 | the posted form gets 400 exactly when name, email or type is empty, or when the type is a role and the email or generated id is taken; 500 exactly when the type is not a role; 200 exactly otherwise |
| UsuariosPage.SubmissionAssignsIff | app/usuarios/page.tsx:74-75 | the form asks for a roster exactly when it creates a consultor with at least one client ticked |
| UsuariosPage.SubmissionStored | app/usuarios/page.tsx:67-76 | the created user holds the typed texts, the address with `", "` and the complement when there is one, the age as parsed, the chosen role, and, for a consultor, the ticked existing clients as its roster (plus any row that already held the fresh id, which `FreshIdHasNoRoster` rules out when every reference resolves) |

## Left out

- HTTP, JSON and the React runtime are not modelled. A request body is its destructured fields (`Field`: absent, `null` or a value). A reply is the `Response` datatype with its status code. React state updates are pure functions of the old state.
- The database schema is not part of this model. The model assumes `name`, `email` and `role` are required columns, `role` is the enum `ADMIN | CONSULTOR | CLIENT`, and `email` is unique. A `null` on a required column or an unknown role makes the ORM fail, and the handler turns that failure into its generic 500.
- Any unique violation, including a collision of the generated id, is answered with "Email já cadastrado", because the handlers test only the error code.
- Prisma.Delete: the schema is not shown, so a row that referenced the deleted consultor may keep a dangling reference (`NoForeignKey`) or have it set to null (`SetNull`). The action is a parameter, and the contract says only that such a row keeps or loses its reference.
- A foreign key that restricts the delete is not modelled. With one, deleting a consultor that clients still reference would fail with the generic 500.
- Each handler is one atomic step. Concurrent requests, and partial failure between `create` and `updateMany` or between the two `updateMany` calls, are not modelled.
- `updatedAt` and any other column the handlers never read or write are not modelled.
- Dates are whole days and milliseconds in one fixed zone. Parsing of the date strings, and the time-zone and daylight-saving effects of `setHours` and `setDate`, are not modelled. "Seven days ago" is `now - 7 * 86400000`.
- ConsultoresRoute.OrderByName: the database's collation is replaced by plain character-code order. Equal keys may come in any order, as the database leaves them.
- ClientsRoute.OrderNewestFirst: rows created at the same instant may come in any order, as the database leaves them.
- A failure of the two listings' queries (their 500 replies) is not modelled. The store is always readable.
- IntParsing.ParseDecimal: JavaScript numbers are IEEE doubles, and digit strings beyond 2^53 lose precision there; the model reads exact integers. If the age column is a 32-bit integer, as the ORM's `Int` type is, an age outside that range would also be refused by the database; that is not modelled.
- The masks' `maxLength` attributes cap what the browser lets the user type. The masks are modelled on any text.
- The dashboard page, the landing page, the layout, the header and the seed script are not part of this model. They hold markup, fetch calls, locale formatting and fixture data.

=== FILE: clients_route.dfy ===
/** The client listing: a conjunctive filter built from optional query
    parameters, newest first, with two counts that ignore the filter. */
module ClientsRoute {
  import opened Model
  import opened Collections

  const MsPerDay := 86400000

  /** Days are whole days since the epoch; times are milliseconds. */
  type Day = int

  /** The first millisecond of day `d` (`setHours(0, 0, 0, 0)`). */
  function StartOfDay(d: Day): int { d * MsPerDay }

  /** The last millisecond of day `d` (`setHours(23, 59, 59, 999)`). */
  function EndOfDay(d: Day): int { d * MsPerDay + MsPerDay - 1 }

  /** The query string. A date parameter is `None` when it is missing or
      empty (both are falsy); an empty `consultorId` is kept as given. */
  datatype ClientQuery = ClientQuery(consultorId: Option<string>, startDate: Option<Day>, endDate: Option<Day>)

  /** The `where` object the handler builds: a role, and optionally a
      consultor and a creation-time range. */
  datatype Range = Range(gte: int, lte: int)
  datatype Where = Where(role: Role, consultorId: Option<Id>, createdAt: Option<Range>)

  function BuildWhere(q: ClientQuery): (w: Where)
    ensures w.role == Client
    ensures w.consultorId.Some? <==> q.consultorId.Some? && q.consultorId.value != ""
    ensures w.consultorId.Some? ==> w.consultorId == q.consultorId
    ensures w.createdAt.Some? <==> q.startDate.Some? && q.endDate.Some?
    ensures w.createdAt.Some? ==>
      w.createdAt.value.gte == StartOfDay(q.startDate.value) &&
      w.createdAt.value.lte == EndOfDay(q.endDate.value)
  {
    var consultor := if q.consultorId.Some? && q.consultorId.value != "" then q.consultorId else None;
    var created := if q.startDate.Some? && q.endDate.Some?
                   then Some(Range(StartOfDay(q.startDate.value), EndOfDay(q.endDate.value)))
                   else None;
    Where(Client, consultor, created)
  }

  /** How the database reads a `where` object: every field present must hold. */
  predicate Satisfies(u: User, w: Where)
  {
    && u.role == w.role
    && (w.consultorId.Some? ==> u.consultorId == w.consultorId)
    && (w.createdAt.Some? ==> w.createdAt.value.gte <= u.createdAt <= w.createdAt.value.lte)
  }

  /** The ids the query selects. */
  function Selected(s: Store, q: ClientQuery): set<Id>
  {
    set k | k in s && Satisfies(s[k], BuildWhere(q))
  }

  /** All client ids, whatever the parameters. */
  function ClientIds(s: Store): set<Id>
  {
    set k | k in s && s[k].role == Client
  }

  /** Client ids created at or after seven days before `now`. */
  function RecentClientIds(s: Store, now: int): set<Id>
  {
    set k | k in s && s[k].role == Client && s[k].createdAt >= now - 7 * MsPerDay
  }

  /** One element of `clients`: the row with its consultor's projection. */
  datatype ClientRow = ClientRow(id: Id, user: User, consultor: Option<ConsultorView>)

  /** The row the query returns for id `k`; a reference to a missing row
      includes nothing. */
  function Row(s: Store, k: Id): ClientRow
    requires k in s
  {
    var c := s[k].consultorId;
    ClientRow(k, s[k], if c.Some? && c.value in s then Some(View(c.value, s[c.value])) else None)
  }

  /** The JSON reply. */
  datatype ClientList = ClientList(clients: seq<ClientRow>, totalLast7Days: nat, totalClients: nat, total: nat)

  predicate NewestFirst(rows: seq<ClientRow>)
  {
    forall i, j :: 0 <= i < j < |rows| ==> rows[i].user.createdAt >= rows[j].user.createdAt
  }

  predicate DistinctIds(rows: seq<ClientRow>)
  {
    forall i, j :: 0 <= i < j < |rows| ==> rows[i].id != rows[j].id
  }

  function IdsOf(rows: seq<ClientRow>): set<Id>
  {
    set i | 0 <= i < |rows| :: rows[i].id
  }

  /** A non-empty set of ids holds one created no earlier than all others. */
  lemma {:induction false} NewestExists(s: Store, ids: set<Id>)
    requires ids != {} && ids <= s.Keys
    ensures exists k :: k in ids && forall j :: j in ids ==> s[j].createdAt <= s[k].createdAt
  {
    var x :| x in ids;
    if ids != {x} {
      NewestExists(s, ids - {x});
      var k :| k in ids - {x} && forall j :: j in ids - {x} ==> s[j].createdAt <= s[k].createdAt;
      if s[x].createdAt > s[k].createdAt {
        assert forall j :: j in ids ==> s[j].createdAt <= s[x].createdAt;
      } else {
        assert forall j :: j in ids ==> s[j].createdAt <= s[k].createdAt;
      }
    }
  }

  /** The ids of `ids`, newest first; ids created at the same instant come
      in any order, as the database leaves them. */
  method OrderNewestFirst(s: Store, ids: set<Id>) returns (order: seq<Id>)
    requires ids <= s.Keys
    ensures forall i :: 0 <= i < |order| ==> order[i] in ids
    ensures Elems(order) == ids && Distinct(order)
    ensures forall i, j :: 0 <= i < j < |order| ==> s[order[i]].createdAt >= s[order[j]].createdAt
  {
    var rest := ids;
    order := [];
    while rest != {}
      invariant rest <= ids
      invariant forall i :: 0 <= i < |order| ==> order[i] in ids
      invariant Elems(order) == ids - rest
      invariant Distinct(order)
      invariant forall i, j :: 0 <= i < j < |order| ==> s[order[i]].createdAt >= s[order[j]].createdAt
      invariant forall i, k :: 0 <= i < |order| && k in rest ==> s[k].createdAt <= s[order[i]].createdAt
      decreases rest
    {
      NewestExists(s, rest);
      var k :| k in rest && forall j :: j in rest ==> s[j].createdAt <= s[k].createdAt;
      ElemsAppend(order, k);
      order := order + [k];
      rest := rest - {k};
    }
  }

  /** GET: the selected clients, newest first, the count of recent clients
      and the count of all clients. */
  method ListClients(s: Store, q: ClientQuery, now: int) returns (r: ClientList)
    ensures IdsOf(r.clients) == Selected(s, q)
    ensures DistinctIds(r.clients)
    ensures forall i :: 0 <= i < |r.clients| ==> r.clients[i].id in s && r.clients[i] == Row(s, r.clients[i].id)
    ensures NewestFirst(r.clients)
    ensures r.total == |r.clients| == |Selected(s, q)|
    ensures r.totalClients == |ClientIds(s)|
    ensures r.totalLast7Days == |RecentClientIds(s, now)|
    ensures r.total <= r.totalClients && r.totalLast7Days <= r.totalClients
  {
    var order := OrderNewestFirst(s, Selected(s, q));
    var rows := seq(|order|, i requires 0 <= i < |order| => Row(s, order[i]));
    assert IdsOf(rows) == Selected(s, q) by {
      assert forall i :: 0 <= i < |order| ==> rows[i].id == order[i];
    }
    DistinctCard(order);
    SubsetCard(Selected(s, q), ClientIds(s));
    SubsetCard(RecentClientIds(s, now), ClientIds(s));
    r := ClientList(rows, |RecentClientIds(s, now)|, |ClientIds(s)|, |rows|);
  }

  // ---------------------------------------------------------------------
  // Properties of the filter

  /** Only clients are listed. */
  lemma OnlyClientsSelected(s: Store, q: ClientQuery)
    ensures forall k :: k in Selected(s, q) ==> s[k].role == Client
    ensures Selected(s, q) <= ClientIds(s)
  {
  }

  /** A non-empty consultor id selects exactly the clients that point at it;
      a missing or empty one selects as if it were not there, so unassigned
      clients are included. */
  lemma ConsultorFilter(s: Store, q: ClientQuery)
    ensures q.consultorId.Some? && q.consultorId.value != "" ==>
      forall k :: k in Selected(s, q) <==> k in Selected(s, q.(consultorId := None)) && s[k].consultorId == q.consultorId
    ensures q.consultorId.None? || q.consultorId == Some("") ==>
      Selected(s, q) == Selected(s, q.(consultorId := None))
  {
  }

  /** A single date bound is ignored: the reply is that of no dates. */
  lemma HalfRangeIgnored(s: Store, q: ClientQuery)
    requires q.startDate.None? || q.endDate.None?
    ensures Selected(s, q) == Selected(s, q.(startDate := None, endDate := None))
  {
  }

  /** With both dates a client passes iff it was created between the first
      millisecond of the start day and the last of the end day, inclusive. */
  lemma DateRangeInclusive(s: Store, q: ClientQuery, k: Id)
    requires q.startDate.Some? && q.endDate.Some?
    ensures k in Selected(s, q) <==>
      && k in Selected(s, q.(startDate := None, endDate := None))
      && StartOfDay(q.startDate.value) <= s[k].createdAt <= EndOfDay(q.endDate.value)
  {
  }

  /** The reply to the unfiltered query is every client. */
  lemma NoParametersSelectsAllClients(s: Store)
    ensures Selected(s, ClientQuery(None, None, None)) == ClientIds(s)
  {
  }
}

=== FILE: collections.dfy ===
/** Facts about finite sets and sequences the listings rely on. */
module Collections {

  /** The elements of a sequence, as a set. */
  function Elems<T>(xs: seq<T>): set<T>
  {
    set i | 0 <= i < |xs| :: xs[i]
  }

  /** No element occurs twice. */
  predicate Distinct<T(==)>(xs: seq<T>)
  {
    forall i, j :: 0 <= i < j < |xs| ==> xs[i] != xs[j]
  }

  /** A subset is no larger than its superset. */
  lemma {:induction false} SubsetCard<T>(a: set<T>, b: set<T>)
    requires a <= b
    ensures |a| <= |b|
  {
    if a != {} {
      var x :| x in a;
      SubsetCard(a - {x}, b - {x});
    }
  }

  /** A sequence without repetitions has as many elements as its set. */
  lemma {:induction false} DistinctCard<T>(xs: seq<T>)
    requires Distinct(xs)
    ensures |Elems(xs)| == |xs|
  {
    if xs != [] {
      var init := xs[..|xs| - 1];
      assert Distinct(init);
      DistinctCard(init);
      assert Elems(xs) == Elems(init) + {xs[|xs| - 1]} by {
        assert forall i :: 0 <= i < |init| ==> init[i] == xs[i];
      }
      assert xs[|xs| - 1] !in Elems(init);
    }
  }

  /** Appending one element adds it to the set of elements. */
  lemma ElemsAppend<T>(xs: seq<T>, x: T)
    ensures Elems(xs + [x]) == Elems(xs) + {x}
  {
    var ys := xs + [x];
    assert forall i :: 0 <= i < |xs| ==> ys[i] == xs[i];
    assert ys[|xs|] == x;
  }
}

=== FILE: consultores_route.dfy ===
/** The consultor listing: every consultor, projected to id, name and email,
    in ascending name order. */
module ConsultoresRoute {
  import opened Model
  import opened Collections

  /** Name order: lexicographic by character code, a stand-in for the
      database collation. */
  predicate NameLe(a: string, b: string)
  {
    |a| == 0 || (|b| > 0 && (a[0] < b[0] || (a[0] == b[0] && NameLe(a[1..], b[1..]))))
  }

  lemma {:induction false} NameLeTotal(a: string, b: string)
    ensures NameLe(a, b) || NameLe(b, a)
  {
    if |a| > 0 && |b| > 0 && a[0] == b[0] {
      NameLeTotal(a[1..], b[1..]);
    }
  }

  lemma {:induction false} NameLeTransitive(a: string, b: string, c: string)
    requires NameLe(a, b) && NameLe(b, c)
    ensures NameLe(a, c)
  {
    if |a| > 0 && a[0] == b[0] && b[0] == c[0] {
      NameLeTransitive(a[1..], b[1..], c[1..]);
    }
  }

  lemma {:induction false} NameLeAntisymmetric(a: string, b: string)
    requires NameLe(a, b) && NameLe(b, a)
    ensures a == b
  {
    if |a| > 0 {
      NameLeAntisymmetric(a[1..], b[1..]);
      assert a == [a[0]] + a[1..] && b == [b[0]] + b[1..];
    }
  }

  /** The consultors' ids. */
  function ConsultorIds(s: Store): set<Id>
  {
    set k | k in s && s[k].role == Consultor
  }

  /** A non-empty set of ids holds one whose name comes first. */
  lemma {:induction false} FirstNameExists(s: Store, ids: set<Id>)
    requires ids != {} && ids <= s.Keys
    ensures exists k :: k in ids && forall j :: j in ids ==> NameLe(s[k].name, s[j].name)
  {
    var x :| x in ids;
    if ids == {x} {
      NameLeTotal(s[x].name, s[x].name);
    } else {
      FirstNameExists(s, ids - {x});
      var k :| k in ids - {x} && forall j :: j in ids - {x} ==> NameLe(s[k].name, s[j].name);
      NameLeTotal(s[x].name, s[k].name);
      if NameLe(s[x].name, s[k].name) {
        forall j | j in ids
          ensures NameLe(s[x].name, s[j].name)
        {
          if j != x {
            NameLeTransitive(s[x].name, s[k].name, s[j].name);
          } else {
            NameLeTotal(s[x].name, s[x].name);
          }
        }
      } else {
        forall j | j in ids
          ensures NameLe(s[k].name, s[j].name)
        {
          if j == x {
            assert NameLe(s[k].name, s[x].name);
          }
        }
      }
    }
  }

  predicate ByName(vs: seq<ConsultorView>)
  {
    forall i, j :: 0 <= i < j < |vs| ==> NameLe(vs[i].name, vs[j].name)
  }

  /** The ids of `ids` in ascending name order; equal names come in any order. */
  method OrderByName(s: Store, ids: set<Id>) returns (order: seq<Id>)
    requires ids <= s.Keys
    ensures forall i :: 0 <= i < |order| ==> order[i] in ids
    ensures Elems(order) == ids && Distinct(order)
    ensures forall i, j :: 0 <= i < j < |order| ==> NameLe(s[order[i]].name, s[order[j]].name)
  {
    var rest := ids;
    order := [];
    while rest != {}
      invariant rest <= ids
      invariant forall i :: 0 <= i < |order| ==> order[i] in ids
      invariant Elems(order) == ids - rest
      invariant Distinct(order)
      invariant forall i, j :: 0 <= i < j < |order| ==> NameLe(s[order[i]].name, s[order[j]].name)
      invariant forall i, k :: 0 <= i < |order| && k in rest ==> NameLe(s[order[i]].name, s[k].name)
      decreases rest
    {
      FirstNameExists(s, rest);
      var k :| k in rest && forall j :: j in rest ==> NameLe(s[k].name, s[j].name);
      ElemsAppend(order, k);
      order := order + [k];
      rest := rest - {k};
    }
  }

  /** GET: the consultors as `{ id, name, email }`, ascending by name. The
      store is only read. */
  method ListConsultores(s: Store) returns (r: seq<ConsultorView>)
    ensures forall i :: 0 <= i < |r| ==> r[i].id in s && s[r[i].id].role == Consultor
    ensures forall i :: 0 <= i < |r| ==> r[i] == View(r[i].id, s[r[i].id])
    ensures forall k :: k in s && s[k].role == Consultor ==> exists i :: 0 <= i < |r| && r[i].id == k
    ensures forall i, j :: 0 <= i < j < |r| ==> r[i].id != r[j].id
    ensures |r| == |ConsultorIds(s)|
    ensures ByName(r)
  {
    var order := OrderByName(s, ConsultorIds(s));
    r := seq(|order|, i requires 0 <= i < |order| => View(order[i], s[order[i]]));
    DistinctCard(order);
    forall k | k in s && s[k].role == Consultor
      ensures exists i :: 0 <= i < |r| && r[i].id == k
    {
      assert k in Elems(order);
      var i :| 0 <= i < |order| && order[i] == k;
      assert r[i].id == k;
    }
  }
}

=== FILE: masks.dfy ===
/** The input masks of the user form: strip every non-digit, then rewrite the
    first match of a pattern of fixed-width digit groups with a template. */
module Masks {
  import opened Model

  predicate IsDigit(c: char)
  {
    '0' <= c <= '9'
  }

  predicate AllDigits(s: string)
  {
    forall i :: 0 <= i < |s| ==> IsDigit(s[i])
  }

  /** `value.replace(/\D/g, "")`: the digits of `s`, in order. */
  function Digits(s: string): (r: string)
    ensures AllDigits(r)
    ensures |r| <= |s|
  {
    if s == [] then [] else (if IsDigit(s[0]) then [s[0]] else []) + Digits(s[1..])
  }

  lemma {:induction false} DigitsAppend(a: string, b: string)
    ensures Digits(a + b) == Digits(a) + Digits(b)
  {
    if a == [] {
      assert a + b == b;
    } else {
      assert (a + b)[0] == a[0];
      assert (a + b)[1..] == a[1..] + b;
      DigitsAppend(a[1..], b);
    }
  }

  lemma {:induction false} DigitsOfDigits(s: string)
    requires AllDigits(s)
    ensures Digits(s) == s
  {
    if s != [] {
      DigitsOfDigits(s[1..]);
    }
  }

  // ---------------------------------------------------------------------
  // A single, non-global regular-expression rewrite

  /** One piece of a replacement template: literal text or `$n` (1-based). */
  datatype Piece = Text(text: string) | Group(n: nat)

  /** The pattern `/(\d{w1})(\d{w2})…/` and its replacement template. */
  datatype Rewrite = Rewrite(widths: seq<nat>, template: seq<Piece>)

  function Sum(ws: seq<nat>): nat
  {
    if ws == [] then 0 else ws[0] + Sum(ws[1..])
  }

  /** `n` digits start at position `i`. */
  predicate RunAt(s: string, i: nat, n: nat)
  {
    i + n <= |s| && forall j :: i <= j < i + n ==> IsDigit(s[j])
  }

  /** Where the leftmost match at or after `from` starts, if any. */
  function FirstRun(s: string, n: nat, from: nat): (r: Option<nat>)
    decreases |s| - from
    ensures r.Some? ==> from <= r.value && RunAt(s, r.value, n)
    ensures r.Some? ==> forall i :: from <= i < r.value ==> !RunAt(s, i, n)
    ensures r.None? ==> forall i :: from <= i ==> !RunAt(s, i, n)
  {
    if from + n > |s| then None
    else if RunAt(s, from, n) then Some(from)
    else FirstRun(s, n, from + 1)
  }

  /** The capture groups of a match: consecutive slices of the given widths
      (a match always holds enough characters for all of them). */
  function Split(m: string, ws: seq<nat>): (groups: seq<string>)
    ensures |groups| == |ws|
  {
    if ws == [] then []
    else
      var w := if ws[0] <= |m| then ws[0] else |m|;
      [m[..w]] + Split(m[w..], ws[1..])
  }

  lemma SplitTwo(m: string, a: nat, b: nat)
    requires a + b <= |m|
    ensures Split(m, [a, b]) == [m[..a], m[a..a + b]]
  {
    assert [a, b][1..] == [b];
    assert [b][1..] == [];
    assert m[a..][..b] == m[a..a + b];
  }

  lemma SplitThree(m: string, a: nat, b: nat, c: nat)
    requires a + b + c <= |m|
    ensures Split(m, [a, b, c]) == [m[..a], m[a..a + b], m[a + b..a + b + c]]
  {
    assert [a, b, c][1..] == [b, c];
    SplitTwo(m[a..], b, c);
    assert m[a..][..b] == m[a..a + b];
    assert m[a..][b..b + c] == m[a + b..a + b + c];
  }

  lemma SplitFour(m: string, a: nat, b: nat, c: nat, d: nat)
    requires a + b + c + d <= |m|
    ensures Split(m, [a, b, c, d]) == [m[..a], m[a..a + b], m[a + b..a + b + c], m[a + b + c..a + b + c + d]]
  {
    assert [a, b, c, d][1..] == [b, c, d];
    SplitThree(m[a..], b, c, d);
    assert m[a..][..b] == m[a..a + b];
    assert m[a..][b..b + c] == m[a + b..a + b + c];
    assert m[a..][b + c..b + c + d] == m[a + b + c..a + b + c + d];
  }

  /** The template with every `$n` replaced by group `n`; a reference to a
      group the pattern does not have expands to nothing. */
  function Expand(template: seq<Piece>, groups: seq<string>): string
  {
    if template == [] then []
    else
      var head := match template[0]
        case Text(t) => t
        case Group(n) => if 1 <= n <= |groups| then groups[n - 1] else [];
      head + Expand(template[1..], groups)
  }

  /** `s.replace(pattern, template)` with a non-global pattern: only the
      leftmost match is rewritten; no match leaves `s` as it is. */
  function ReplaceFirst(s: string, rw: Rewrite): string
  {
    var n := Sum(rw.widths);
    match FirstRun(s, n, 0)
    case None => s
    case Some(i) => s[..i] + Expand(rw.template, Split(s[i..i + n], rw.widths)) + s[i + n..]
  }

  /** On a string of digits the leftmost match starts at position 0, so the
      rewrite applies to the first `n` digits when there are enough of them
      and keeps the rest. */
  lemma ReplaceOnDigits(c: string, rw: Rewrite)
    requires AllDigits(c)
    ensures |c| < Sum(rw.widths) ==> ReplaceFirst(c, rw) == c
    ensures |c| >= Sum(rw.widths) ==>
      ReplaceFirst(c, rw) == Expand(rw.template, Split(c[..Sum(rw.widths)], rw.widths)) + c[Sum(rw.widths)..]
  {
    var n := Sum(rw.widths);
    if |c| >= n {
      assert RunAt(c, 0, n);
      assert c[..0] == [];
    }
  }

  // ---------------------------------------------------------------------
  // The three masks

  const PhoneTemplate := [Text("("), Group(1), Text(") "), Group(2), Text("-"), Group(3)]
  /** `/(\d{2})(\d{4})(\d{4})/` → `"($1) $2-$3"` */
  const PhoneTen := Rewrite([2, 4, 4], PhoneTemplate)
  /** `/(\d{2})(\d{5})(\d{4})/` → `"($1) $2-$3"` */
  const PhoneEleven := Rewrite([2, 5, 4], PhoneTemplate)
  /** `/(\d{3})(\d{3})(\d{3})(\d{2})/` → `"$1.$2.$3-$4"` */
  const CpfMask := Rewrite([3, 3, 3, 2], [Group(1), Text("."), Group(2), Text("."), Group(3), Text("-"), Group(4)])
  /** `/(\d{5})(\d{3})/` → `"$1-$2"` */
  const CepMask := Rewrite([5, 3], [Group(1), Text("-"), Group(2)])

  function FormatPhone(value: string): string
  {
    var cleaned := Digits(value);
    if |cleaned| <= 10 then ReplaceFirst(cleaned, PhoneTen) else ReplaceFirst(cleaned, PhoneEleven)
  }

  function FormatCPF(value: string): string
  {
    ReplaceFirst(Digits(value), CpfMask)
  }

  function FormatCEP(value: string): string
  {
    ReplaceFirst(Digits(value), CepMask)
  }

  // ---------------------------------------------------------------------
  // What each mask produces

  lemma ExpandCons(p: Piece, rest: seq<Piece>, groups: seq<string>)
    ensures Expand([p] + rest, groups) == Expand([p], groups) + Expand(rest, groups)
  {
    assert ([p] + rest)[1..] == rest;
    assert [p][1..] == [];
  }

  lemma ExpandPhone(a: string, b: string, c: string)
    ensures Expand(PhoneTemplate, [a, b, c]) == "(" + a + ") " + b + "-" + c
  {
    var g := [a, b, c];
    var t5 := [Group(3)];
    var t4 := [Text("-")] + t5;
    var t3 := [Group(2)] + t4;
    var t2 := [Text(") ")] + t3;
    var t1 := [Group(1)] + t2;
    assert PhoneTemplate == [Text("(")] + t1;
    assert [Group(3)][1..] == [];
    ExpandCons(Text("-"), t5, g);
    ExpandCons(Group(2), t4, g);
    ExpandCons(Text(") "), t3, g);
    ExpandCons(Group(1), t2, g);
    ExpandCons(Text("("), t1, g);
  }

  lemma ExpandCpf(a: string, b: string, c: string, d: string)
    ensures Expand(CpfMask.template, [a, b, c, d]) == a + "." + b + "." + c + "-" + d
  {
    var g := [a, b, c, d];
    var t6 := [Group(4)];
    var t5 := [Text("-")] + t6;
    var t4 := [Group(3)] + t5;
    var t3 := [Text(".")] + t4;
    var t2 := [Group(2)] + t3;
    var t1 := [Text(".")] + t2;
    assert CpfMask.template == [Group(1)] + t1;
    assert [Group(4)][1..] == [];
    ExpandCons(Text("-"), t6, g);
    ExpandCons(Group(3), t5, g);
    ExpandCons(Text("."), t4, g);
    ExpandCons(Group(2), t3, g);
    ExpandCons(Text("."), t2, g);
    ExpandCons(Group(1), t1, g);
  }

  lemma ExpandCep(a: string, b: string)
    ensures Expand(CepMask.template, [a, b]) == a + "-" + b
  {
    var g := [a, b];
    var t2 := [Group(2)];
    var t1 := [Text("-")] + t2;
    assert CepMask.template == [Group(1)] + t1;
    assert [Group(2)][1..] == [];
    ExpandCons(Text("-"), t2, g);
    ExpandCons(Group(1), t1, g);
  }

  /** Up to ten digits: exactly ten become `(DD) DDDD-DDDD`, fewer stay bare.
      Eleven or more: the first eleven become `(DD) DDDDD-DDDD` and the
      others follow unchanged. */
  lemma FormatPhoneShape(value: string)
    ensures var c := Digits(value);
      && (|c| < 10 ==> FormatPhone(value) == c)
      && (|c| == 10 ==> FormatPhone(value) == "(" + c[..2] + ") " + c[2..6] + "-" + c[6..10])
      && (|c| >= 11 ==> FormatPhone(value) == "(" + c[..2] + ") " + c[2..7] + "-" + c[7..11] + c[11..])
  {
    var c := Digits(value);
    if |c| <= 10 {
      assert Sum([2, 4, 4]) == 10 by {
        assert [2, 4, 4][1..] == [4, 4] && [4, 4][1..] == [4] && [4][1..] == [];
      }
      ReplaceOnDigits(c, PhoneTen);
      if |c| == 10 {
        SplitThree(c[..10], 2, 4, 4);
        assert c[..10][..2] == c[..2] && c[..10][2..6] == c[2..6] && c[..10][6..10] == c[6..10];
        ExpandPhone(c[..2], c[2..6], c[6..10]);
      }
    } else {
      assert Sum([2, 5, 4]) == 11 by {
        assert [2, 5, 4][1..] == [5, 4] && [5, 4][1..] == [4] && [4][1..] == [];
      }
      ReplaceOnDigits(c, PhoneEleven);
      SplitThree(c[..11], 2, 5, 4);
      assert c[..11][..2] == c[..2] && c[..11][2..7] == c[2..7] && c[..11][7..11] == c[7..11];
      ExpandPhone(c[..2], c[2..7], c[7..11]);
    }
  }

  /** Eleven or more digits: `DDD.DDD.DDD-DD` and the rest; fewer stay bare. */
  lemma FormatCPFShape(value: string)
    ensures var c := Digits(value);
      && (|c| < 11 ==> FormatCPF(value) == c)
      && (|c| >= 11 ==> FormatCPF(value) == c[..3] + "." + c[3..6] + "." + c[6..9] + "-" + c[9..11] + c[11..])
  {
    var c := Digits(value);
    assert Sum([3, 3, 3, 2]) == 11 by {
      assert [3, 3, 3, 2][1..] == [3, 3, 2] && [3, 3, 2][1..] == [3, 2] && [3, 2][1..] == [2] && [2][1..] == [];
    }
    ReplaceOnDigits(c, CpfMask);
    if |c| >= 11 {
      var m := c[..11];
      var g := [c[..3], c[3..6], c[6..9], c[9..11]];
      assert Split(m, [3, 3, 3, 2]) == g by {
        SplitFour(m, 3, 3, 3, 2);
        assert m[..3] == c[..3] && m[3..6] == c[3..6] && m[6..9] == c[6..9] && m[9..11] == c[9..11];
      }
      ExpandCpf(c[..3], c[3..6], c[6..9], c[9..11]);
      assert FormatCPF(value) == Expand(CpfMask.template, g) + c[11..];
    }
  }

  /** Eight or more digits: `DDDDD-DDD` and the rest; fewer stay bare. */
  lemma FormatCEPShape(value: string)
    ensures var c := Digits(value);
      && (|c| < 8 ==> FormatCEP(value) == c)
      && (|c| >= 8 ==> FormatCEP(value) == c[..5] + "-" + c[5..8] + c[8..])
  {
    var c := Digits(value);
    assert Sum([5, 3]) == 8 by {
      assert [5, 3][1..] == [3] && [3][1..] == [];
    }
    ReplaceOnDigits(c, CepMask);
    if |c| >= 8 {
      SplitTwo(c[..8], 5, 3);
      assert c[..8][..5] == c[..5] && c[..8][5..8] == c[5..8];
      ExpandCep(c[..5], c[5..8]);
    }
  }

  // ---------------------------------------------------------------------
  // Digits are kept, so every mask is idempotent

  lemma {:induction false} NoDigits(s: string)
    requires forall i :: 0 <= i < |s| ==> !IsDigit(s[i])
    ensures Digits(s) == []
  {
    if s != [] {
      NoDigits(s[1..]);
    }
  }

  /** Appending a digit string appends its digits. */
  lemma DigitsThenDigits(x: string, d: string)
    requires Digits(d) == d
    ensures Digits(x + d) == Digits(x) + d
  {
    DigitsAppend(x, d);
  }

  /** Appending a digit-free separator adds no digits. */
  lemma DigitsThenSeparator(x: string, sep: string)
    requires forall i :: 0 <= i < |sep| ==> !IsDigit(sep[i])
    ensures Digits(x + sep) == Digits(x)
  {
    DigitsAppend(x, sep);
    NoDigits(sep);
  }

  /** The slices of a digit string are digit strings. */
  lemma DigitSlice(c: string, i: nat, j: nat)
    requires AllDigits(c) && i <= j <= |c|
    ensures Digits(c[i..j]) == c[i..j]
  {
    DigitsOfDigits(c[i..j]);
  }

  lemma DigitsOfPhoneForm(a: string, b: string, c: string, t: string)
    requires Digits(a) == a && Digits(b) == b && Digits(c) == c && Digits(t) == t
    ensures Digits("(" + a + ") " + b + "-" + c + t) == a + b + c + t
  {
    var x1 := "(" + a;
    assert Digits(x1) == a by { NoDigits("("); DigitsThenDigits("(", a); }
    var x2 := x1 + ") ";
    assert Digits(x2) == a by { DigitsThenSeparator(x1, ") "); }
    var x3 := x2 + b;
    assert Digits(x3) == a + b by { DigitsThenDigits(x2, b); }
    var x4 := x3 + "-";
    assert Digits(x4) == a + b by { DigitsThenSeparator(x3, "-"); }
    var x5 := x4 + c;
    assert Digits(x5) == a + b + c by { DigitsThenDigits(x4, c); }
    DigitsThenDigits(x5, t);
  }

  lemma DigitsOfCpfForm(a: string, b: string, c: string, d: string, t: string)
    requires Digits(a) == a && Digits(b) == b && Digits(c) == c && Digits(d) == d && Digits(t) == t
    ensures Digits(a + "." + b + "." + c + "-" + d + t) == a + b + c + d + t
  {
    var x1 := a + ".";
    assert Digits(x1) == a by { DigitsThenSeparator(a, "."); }
    var x2 := x1 + b;
    assert Digits(x2) == a + b by { DigitsThenDigits(x1, b); }
    var x3 := x2 + ".";
    assert Digits(x3) == a + b by { DigitsThenSeparator(x2, "."); }
    var x4 := x3 + c;
    assert Digits(x4) == a + b + c by { DigitsThenDigits(x3, c); }
    var x5 := x4 + "-";
    assert Digits(x5) == a + b + c by { DigitsThenSeparator(x4, "-"); }
    var x6 := x5 + d;
    assert Digits(x6) == a + b + c + d by { DigitsThenDigits(x5, d); }
    DigitsThenDigits(x6, t);
  }

  lemma DigitsOfCepForm(a: string, b: string, t: string)
    requires Digits(a) == a && Digits(b) == b && Digits(t) == t
    ensures Digits(a + "-" + b + t) == a + b + t
  {
    var x1 := a + "-";
    assert Digits(x1) == a by { DigitsThenSeparator(a, "-"); }
    var x2 := x1 + b;
    assert Digits(x2) == a + b by { DigitsThenDigits(x1, b); }
    DigitsThenDigits(x2, t);
  }

  /** The phone layout applied to digits `c`, split at `k` and `e`, keeps them. */
  lemma PhoneLayoutKeepsDigits(c: string, k: nat, e: nat)
    requires AllDigits(c) && 2 <= k <= e <= |c|
    ensures Digits("(" + c[..2] + ") " + c[2..k] + "-" + c[k..e] + c[e..]) == c
  {
    assert Digits(c[..2]) == c[..2] by { DigitSlice(c, 0, 2); assert c[0..2] == c[..2]; }
    assert Digits(c[2..k]) == c[2..k] by { DigitSlice(c, 2, k); }
    assert Digits(c[k..e]) == c[k..e] by { DigitSlice(c, k, e); }
    assert Digits(c[e..]) == c[e..] by { DigitSlice(c, e, |c|); assert c[e..|c|] == c[e..]; }
    DigitsOfPhoneForm(c[..2], c[2..k], c[k..e], c[e..]);
    Reassemble(c, 2, k, e);
  }

  /** Cutting a sequence at three points and gluing the pieces back gives it. */
  lemma Reassemble<T>(c: seq<T>, i: nat, k: nat, e: nat)
    requires i <= k <= e <= |c|
    ensures c[..i] + c[i..k] + c[k..e] + c[e..] == c
  {
    assert c[..i] + c[i..k] == c[..k];
    assert c[..k] + c[k..e] == c[..e];
  }

  lemma PhoneKeepsDigits(value: string)
    ensures Digits(FormatPhone(value)) == Digits(value)
  {
    var c := Digits(value);
    FormatPhoneShape(value);
    if |c| < 10 {
      DigitsOfDigits(c);
    } else if |c| == 10 {
      PhoneLayoutKeepsDigits(c, 6, 10);
      assert c[10..] == [];
      assert "(" + c[..2] + ") " + c[2..6] + "-" + c[6..10] + c[10..] == FormatPhone(value);
    } else {
      PhoneLayoutKeepsDigits(c, 7, 11);
    }
  }

  /** The CPF layout applied to at least eleven digits keeps them. */
  lemma CpfLayoutKeepsDigits(c: string)
    requires AllDigits(c) && 11 <= |c|
    ensures Digits(c[..3] + "." + c[3..6] + "." + c[6..9] + "-" + c[9..11] + c[11..]) == c
  {
    assert Digits(c[..3]) == c[..3] by { DigitSlice(c, 0, 3); assert c[0..3] == c[..3]; }
    assert Digits(c[3..6]) == c[3..6] by { DigitSlice(c, 3, 6); }
    assert Digits(c[6..9]) == c[6..9] by { DigitSlice(c, 6, 9); }
    assert Digits(c[9..11]) == c[9..11] by { DigitSlice(c, 9, 11); }
    assert Digits(c[11..]) == c[11..] by { DigitSlice(c, 11, |c|); assert c[11..|c|] == c[11..]; }
    DigitsOfCpfForm(c[..3], c[3..6], c[6..9], c[9..11], c[11..]);
    assert c[..3] + c[3..6] + c[6..9] + c[9..11] + c[11..] == c;
  }

  lemma CPFKeepsDigits(value: string)
    ensures Digits(FormatCPF(value)) == Digits(value)
  {
    var c := Digits(value);
    FormatCPFShape(value);
    if |c| < 11 {
      DigitsOfDigits(c);
    } else {
      CpfLayoutKeepsDigits(c);
    }
  }

  lemma CEPKeepsDigits(value: string)
    ensures Digits(FormatCEP(value)) == Digits(value)
  {
    var c := Digits(value);
    FormatCEPShape(value);
    if |c| < 8 {
      DigitsOfDigits(c);
    } else {
      DigitSlice(c, 0, 5);
      DigitSlice(c, 5, 8);
      DigitSlice(c, 8, |c|);
      assert c[0..5] == c[..5] && c[8..|c|] == c[8..];
      DigitsOfCepForm(c[..5], c[5..8], c[8..]);
      assert c[..5] + c[5..8] + c[8..] == c;
    }
  }

  lemma PhoneIdempotent(value: string)
    ensures FormatPhone(FormatPhone(value)) == FormatPhone(value)
  {
    PhoneKeepsDigits(value);
  }

  lemma CPFIdempotent(value: string)
    ensures FormatCPF(FormatCPF(value)) == FormatCPF(value)
  {
    CPFKeepsDigits(value);
  }

  lemma CEPIdempotent(value: string)
    ensures FormatCEP(FormatCEP(value)) == FormatCEP(value)
  {
    CEPKeepsDigits(value);
  }
}

=== FILE: model.dfy ===
/** The single `User` table of the dashboard and the values its HTTP handlers
    exchange: request body fields, responses and the (response, store) pair
    every write handler returns. */
module Model {

  /** A value that may be missing (a nullable column, a missing query parameter). */
  datatype Option<+T> = None | Some(value: T)

  /** A field of a JSON request body as the handler destructures it: absent
      from the body (`undefined`), an explicit `null`, or a value. */
  datatype Field<+T> = Undefined | Null | Given(value: T)

  /** JavaScript truthiness of a string field: `undefined`, `null` and `""`
      are falsy. */
  predicate Truthy(f: Field<string>)
  {
    f.Given? && f.value != ""
  }

  type Id = string

  datatype Role = Admin | Consultor | Client

  /** The spelling of a role in JSON bodies and in the database enum. */
  function RoleName(r: Role): string
  {
    match r
    case Admin => "ADMIN"
    case Consultor => "CONSULTOR"
    case Client => "CLIENT"
  }

  /** Reads a role from its enum spelling; anything else is not a role. */
  function ParseRole(s: string): (r: Option<Role>)
    ensures r.Some? ==> RoleName(r.value) == s
    ensures r.None? ==> forall role: Role :: RoleName(role) != s
  {
    if s == "ADMIN" then Some(Admin)
    else if s == "CONSULTOR" then Some(Consultor)
    else if s == "CLIENT" then Some(Client)
    else None
  }

  /** One row of the `User` table; the id is the row's key in the store. */
  datatype User = User(
    name: string,
    email: string,
    telefone: Option<string>,
    cpf: Option<string>,
    idade: Option<int>,
    endereco: Option<string>,
    role: Role,
    consultorId: Option<Id>,
    createdAt: int)   // milliseconds since the epoch

  type Store = map<Id, User>

  /** The unique constraint on `email`. */
  ghost predicate EmailsUnique(s: Store)
  {
    forall a, b :: a in s && b in s && a != b ==> s[a].email != s[b].email
  }

  /** Some row other than `except` already uses `email`. */
  predicate EmailUsed(s: Store, email: string, except: Option<Id>)
  {
    exists k :: k in s && Some(k) != except && s[k].email == email
  }

  /** Every consultor reference names a row that exists. */
  ghost predicate RefsResolve(s: Store)
  {
    forall k :: k in s && s[k].consultorId.Some? ==> s[k].consultorId.value in s
  }

  /** The ids of the rows that point at consultor `c`: its roster. */
  function Roster(s: Store, c: Id): (r: set<Id>)
    ensures forall k :: k in r <==> k in s && s[k].consultorId == Some(c)
  {
    set k | k in s && s[k].consultorId == Some(c)
  }

  /** The `{ id, name, email }` projection of a user. */
  datatype ConsultorView = ConsultorView(id: Id, name: string, email: string)

  function View(id: Id, u: User): ConsultorView
  {
    ConsultorView(id, u.name, u.email)
  }

  /** What a successful write returns. */
  datatype Body = Saved(id: Id, user: User) | Deleted(message: string)

  /** The text of the unique-constraint (P2002) reply. */
  const ConflictMessage := "Email já cadastrado"

  /** A handler's reply; `Conflict` is the unique-constraint (P2002) case. */
  datatype Response =
    | Ok(body: Body)
    | BadRequest(error: string)
    | Conflict(error: string)
    | ServerError(error: string)

  /** The HTTP status each reply is sent with. */
  function Status(r: Response): (code: nat)
    ensures code == 200 <==> r.Ok?
    ensures code == 400 <==> r.BadRequest? || r.Conflict?
    ensures code == 500 <==> r.ServerError?
  {
    match r
    case Ok(_) => 200
    case BadRequest(_) => 400
    case Conflict(_) => 400
    case ServerError(_) => 500
  }

  /** The outcome of one write handler: its reply and the store after it. */
  datatype Handled = Handled(response: Response, store: Store)
}

=== FILE: parse_int.dfy ===
/** JavaScript's `parseInt(string)` with no radix argument, as the user form
    uses it on the age field: leading white space is skipped, one sign is
    read, a `0x`/`0X` prefix selects base sixteen, and the longest run of
    digits of that base that follows is the value; no digit at all is NaN,
    modelled as `None`. */
module IntParsing {
  import opened Model

  /** The white space `parseInt` skips: the ECMAScript WhiteSpace and
      LineTerminator code points. */
  predicate IsSpace(c: char)
  {
    || c == '\t' || c == '\U{B}' || c == '\U{C}' || c == ' ' || c == '\U{A0}' || c == '\U{FEFF}'
    || c == '\n' || c == '\r' || c == '\U{2028}' || c == '\U{2029}'
    || c == '\U{1680}' || ('\U{2000}' <= c <= '\U{200A}') || c == '\U{202F}' || c == '\U{205F}' || c == '\U{3000}'
  }

  /** The value of `c` as a digit of base up to 36, restricted here to 16. */
  function DigitValue(c: char): (v: nat)
    ensures v <= 16
  {
    if '0' <= c <= '9' then (c - '0') as nat
    else if 'a' <= c <= 'f' then (c - 'a') as nat + 10
    else if 'A' <= c <= 'F' then (c - 'A') as nat + 10
    else 16
  }

  predicate IsRadixDigit(c: char, radix: nat)
  {
    DigitValue(c) < radix
  }

  /** `s` without its leading white space. */
  function SkipSpace(s: string): (r: string)
    ensures |r| <= |s| && r == s[|s| - |r|..]
    ensures r == [] || !IsSpace(r[0])
    ensures forall i :: 0 <= i < |s| - |r| ==> IsSpace(s[i])
  {
    if s != [] && IsSpace(s[0]) then SkipSpace(s[1..]) else s
  }

  /** The longest prefix of `s` made of digits of `radix`. */
  function LeadingDigits(s: string, radix: nat): (r: string)
    ensures r <= s
    ensures forall i :: 0 <= i < |r| ==> IsRadixDigit(r[i], radix)
    ensures |r| == |s| || !IsRadixDigit(s[|r|], radix)
  {
    if s != [] && IsRadixDigit(s[0], radix) then [s[0]] + LeadingDigits(s[1..], radix) else []
  }

  /** The number a string of digits of `radix` denotes, most significant first. */
  function Value(ds: string, radix: nat): nat
  {
    if ds == [] then 0 else Value(ds[..|ds| - 1], radix) * radix + DigitValue(ds[|ds| - 1])
  }

  function ParseInt(s: string): Option<int>
  {
    ParseSigned(SkipSpace(s))
  }

  /** One optional sign, then the digits. */
  function ParseSigned(t: string): Option<int>
  {
    if t != [] && t[0] == '-' then
      match ParseDigits(t[1..])
      case None => None
      case Some(v) => Some(-(v as int))
    else if t != [] && t[0] == '+' then ParseDigits(t[1..])
    else ParseDigits(t)
  }

  /** The digits after the sign: hexadecimal after `0x` or `0X`, decimal
      otherwise. */
  function ParseDigits(u: string): Option<nat>
  {
    var hex := |u| >= 2 && u[0] == '0' && (u[1] == 'x' || u[1] == 'X');
    var radix := if hex then 16 else 10;
    var ds := LeadingDigits(if hex then u[2..] else u, radix);
    if ds == [] then None else Some(Value(ds, radix))
  }

  // ---------------------------------------------------------------------
  // The decimal spelling of a number, and parseInt reading it back

  function DigitChar(d: nat): (c: char)
    requires d < 10
    ensures '0' <= c <= '9' && DigitValue(c) == d
  {
    ('0' as int + d) as char
  }

  /** `String(n)` for a non-negative integer: no leading zero except for 0. */
  function Decimal(n: nat): (r: string)
    ensures r != []
    ensures forall i :: 0 <= i < |r| ==> '0' <= r[i] <= '9'
    ensures r[0] == '0' ==> n == 0
  {
    if n < 10 then [DigitChar(n)] else Decimal(n / 10) + [DigitChar(n % 10)]
  }

  lemma {:induction false} ValueOfDecimal(n: nat)
    ensures Value(Decimal(n), 10) == n
  {
    if n >= 10 {
      var r := Decimal(n);
      assert r[..|r| - 1] == Decimal(n / 10);
      ValueOfDecimal(n / 10);
    } else {
      assert Decimal(n)[..0] == [];
    }
  }

  /** A run of decimal digits followed by a non-digit is read up to the
      non-digit. */
  lemma {:induction false} LeadingDecimal(ds: string, rest: string)
    requires forall i :: 0 <= i < |ds| ==> '0' <= ds[i] <= '9'
    requires rest == [] || !('0' <= rest[0] <= '9')
    ensures LeadingDigits(ds + rest, 10) == ds
  {
    if ds == [] {
      assert ds + rest == rest;
    } else {
      assert (ds + rest)[1..] == ds[1..] + rest;
      LeadingDecimal(ds[1..], rest);
      assert ds == [ds[0]] + ds[1..];
    }
  }

  /** Reading back a number written in decimal, with optional white space and
      sign in front and any text after it that neither starts with a digit nor
      turns a lone `0` into a hexadecimal prefix: `"28 anos"` is 28. */
  lemma ParseDecimal(space: string, negative: bool, n: nat, rest: string)
    requires forall i :: 0 <= i < |space| ==> IsSpace(space[i])
    requires rest == [] || (!('0' <= rest[0] <= '9') && (n == 0 ==> rest[0] != 'x' && rest[0] != 'X'))
    ensures ParseInt(space + (if negative then "-" else "") + Decimal(n) + rest) == Some(if negative then -(n as int) else n)
  {
    var sign: string := if negative then "-" else "";
    var d := Decimal(n);
    var t := sign + (d + rest);
    assert space + sign + d + rest == space + t;
    ParseSignedDecimal(negative, n, rest);
    SkipLeadingSpace(space, t);
  }

  /** The same without white space in front. */
  lemma ParseSignedDecimal(negative: bool, n: nat, rest: string)
    requires rest == [] || (!('0' <= rest[0] <= '9') && (n == 0 ==> rest[0] != 'x' && rest[0] != 'X'))
    ensures var t := (if negative then "-" else "") + (Decimal(n) + rest);
      && t != [] && !IsSpace(t[0])
      && ParseSigned(t) == Some(if negative then -(n as int) else n)
  {
    var u := Decimal(n) + rest;
    assert u != [] && '0' <= u[0] <= '9' by {
      assert u[0] == Decimal(n)[0];
    }
    assert ParseDigits(u) == Some(n) by {
      ParseUnsigned(n, rest);
    }
    if negative {
      var t := "-" + u;
      assert t[0] == '-' && t[1..] == u;
      assert ParseSigned(t) == Some(-(n as int));
    } else {
      assert "" + u == u;
      assert u[0] != '-' && u[0] != '+';
      assert ParseSigned(u) == ParseDigits(u);
    }
  }

  /** The unsigned part: the digits are read in base ten and no further. */
  lemma ParseUnsigned(n: nat, rest: string)
    requires rest == [] || (!('0' <= rest[0] <= '9') && (n == 0 ==> rest[0] != 'x' && rest[0] != 'X'))
    ensures ParseDigits(Decimal(n) + rest) == Some(n)
  {
    var d := Decimal(n);
    var u := d + rest;
    if |u| >= 2 && u[0] == '0' {
      assert d[0] == '0';
      assert n == 0;
      assert u[1] == rest[0];
    }
    LeadingDecimal(d, rest);
    ValueOfDecimal(n);
  }

  /** White space in front of a string that does not start with white space is
      skipped entirely. */
  lemma {:induction false} SkipLeadingSpace(space: string, s: string)
    requires forall i :: 0 <= i < |space| ==> IsSpace(space[i])
    requires s != [] && !IsSpace(s[0])
    ensures SkipSpace(space + s) == s
  {
    if space == [] {
      assert space + s == s;
    } else {
      assert (space + s)[1..] == space[1..] + s;
      SkipLeadingSpace(space[1..], s);
    }
  }

  /** Text without a single decimal digit reads as NaN: even the hexadecimal
      prefix starts with the digit 0. */
  lemma NoDigitIsNaN(s: string)
    requires forall i :: 0 <= i < |s| ==> !('0' <= s[i] <= '9')
    ensures ParseInt(s) == None
  {
    var t := SkipSpace(s);
    var m := |s| - |t|;
    if t != [] {
      assert t[0] == s[m];
      if |t| > 1 {
        assert t[1] == s[m + 1];
      }
    }
  }
}

=== FILE: prisma.dfy ===
/** The ORM calls the handlers make, by their intended semantics on a store
    of rows: `create`, `update`, `updateMany` and `delete` on the `User`
    table, with the error codes the handlers distinguish. */
module Prisma {
  import opened Model

  /** The `data` object both write handlers pass to `create` and `update`. */
  datatype UserData = UserData(
    name: Field<string>,
    email: Field<string>,
    telefone: Field<string>,
    cpf: Field<string>,
    idade: Field<int>,
    endereco: Field<string>,
    role: Field<string>)

  /** The result of one query: the written row and the new store, or the
      failure the ORM raises. */
  datatype QueryResult =
    | Written(user: User, store: Store)
    | UniqueViolation     // P2002
    | RecordNotFound      // P2025
    | ValidationError     // a value the schema refuses

  /** A nullable column written from a body field; an absent field keeps `prev`. */
  function Nullable<T>(f: Field<T>, prev: Option<T>): Option<T>
  {
    match f
    case Undefined => prev
    case Null => None
    case Given(v) => Some(v)
  }

  /** A required column written from a body field; an absent field keeps `prev`. */
  function Required<T>(f: Field<T>, prev: T): T
  {
    if f.Given? then f.value else prev
  }

  /** The role a field names, when it names one. */
  predicate NamesRole(f: Field<string>)
  {
    f.Given? && ParseRole(f.value).Some?
  }

  /** Every field the body supplies is stored: a value as given, and `null`
      as an empty optional column. */
  predicate Carries(u: User, d: UserData)
  {
    && (d.name.Given? ==> u.name == d.name.value)
    && (d.email.Given? ==> u.email == d.email.value)
    && (d.role.Given? ==> RoleName(u.role) == d.role.value)
    && (d.telefone.Given? ==> u.telefone == Some(d.telefone.value))
    && (d.telefone.Null? ==> u.telefone.None?)
    && (d.cpf.Given? ==> u.cpf == Some(d.cpf.value))
    && (d.cpf.Null? ==> u.cpf.None?)
    && (d.idade.Given? ==> u.idade == Some(d.idade.value))
    && (d.idade.Null? ==> u.idade.None?)
    && (d.endereco.Given? ==> u.endereco == Some(d.endereco.value))
    && (d.endereco.Null? ==> u.endereco.None?)
  }

  /** Every field absent from the body (`undefined`, which the ORM ignores)
      keeps the value it had in `prev`. */
  predicate KeepsAbsent(u: User, prev: User, d: UserData)
  {
    && (d.name.Undefined? ==> u.name == prev.name)
    && (d.email.Undefined? ==> u.email == prev.email)
    && (d.role.Undefined? ==> u.role == prev.role)
    && (d.telefone.Undefined? ==> u.telefone == prev.telefone)
    && (d.cpf.Undefined? ==> u.cpf == prev.cpf)
    && (d.idade.Undefined? ==> u.idade == prev.idade)
    && (d.endereco.Undefined? ==> u.endereco == prev.endereco)
  }

  /** `create`: name, email and role must be given and the role must be one
      of the enum's; the row starts with no consultor. */
  function Create(s: Store, id: Id, d: UserData, now: int): (r: QueryResult)
    ensures r.ValidationError? <==> !d.name.Given? || !d.email.Given? || !NamesRole(d.role)
    ensures r.UniqueViolation? <==>
      d.name.Given? && d.email.Given? && NamesRole(d.role) && (id in s || EmailUsed(s, d.email.value, None))
    ensures !r.RecordNotFound?
    ensures r.Written? ==>
      && id !in s
      && r.store.Keys == s.Keys + {id}
      && r.store[id] == r.user
      && (forall k :: k in s ==> r.store[k] == s[k])
      && Carries(r.user, d)
      // an optional column the body leaves out starts null
      && (d.telefone.Undefined? ==> r.user.telefone.None?)
      && (d.cpf.Undefined? ==> r.user.cpf.None?)
      && (d.idade.Undefined? ==> r.user.idade.None?)
      && (d.endereco.Undefined? ==> r.user.endereco.None?)
      && r.user.consultorId.None? && r.user.createdAt == now
    ensures r.Written? && EmailsUnique(s) ==> EmailsUnique(r.store)
  {
    if !d.name.Given? || !d.email.Given? || !NamesRole(d.role) then ValidationError
    else if id in s || EmailUsed(s, d.email.value, None) then UniqueViolation
    else
      var u := User(d.name.value, d.email.value,
                    Nullable(d.telefone, None), Nullable(d.cpf, None),
                    Nullable(d.idade, None), Nullable(d.endereco, None),
                    ParseRole(d.role.value).value, None, now);
      Written(u, s[id := u])
  }

  /** The body fields `update` refuses: `null` on a required column, or a
      role outside the enum. */
  predicate ValidPatch(d: UserData)
  {
    !d.name.Null? && !d.email.Null? && !d.role.Null? && (d.role.Given? ==> NamesRole(d.role))
  }

  /** A row after a partial update: absent fields keep their value. */
  function Patch(u: User, d: UserData): User
    requires ValidPatch(d)
  {
    u.(name := Required(d.name, u.name),
       email := Required(d.email, u.email),
       telefone := Nullable(d.telefone, u.telefone),
       cpf := Nullable(d.cpf, u.cpf),
       idade := Nullable(d.idade, u.idade),
       endereco := Nullable(d.endereco, u.endereco),
       role := if d.role.Given? then ParseRole(d.role.value).value else u.role)
  }

  /** `update` of one row by id. */
  function Update(s: Store, id: Id, d: UserData): (r: QueryResult)
    ensures r.ValidationError? <==> !ValidPatch(d)
    ensures r.RecordNotFound? <==> ValidPatch(d) && id !in s
    ensures r.UniqueViolation? <==>
      ValidPatch(d) && id in s && d.email.Given? && EmailUsed(s, d.email.value, Some(id))
    ensures r.Written? ==>
      && id in s
      && r.store.Keys == s.Keys
      && r.store[id] == r.user
      && (forall k :: k in s && k != id ==> r.store[k] == s[k])
      && Carries(r.user, d)
      && KeepsAbsent(r.user, s[id], d)
      // the columns the body does not carry never change
      && r.user.consultorId == s[id].consultorId
      && r.user.createdAt == s[id].createdAt
    ensures r.Written? && EmailsUnique(s) ==> EmailsUnique(r.store)
  {
    if !ValidPatch(d) then ValidationError
    else if id !in s then RecordNotFound
    else if d.email.Given? && EmailUsed(s, d.email.value, Some(id)) then UniqueViolation
    else
      var u := Patch(s[id], d);
      Written(u, s[id := u])
  }

  /** `updateMany({ where: { id: { in: ids } }, data: { consultorId: c } })`:
      only ids present in the store are touched. */
  function LinkToConsultor(s: Store, ids: seq<Id>, c: Id): (r: Store)
    ensures r.Keys == s.Keys
    ensures forall k :: k in s && k in ids ==> r[k] == s[k].(consultorId := Some(c))
    ensures forall k :: k in s && k !in ids ==> r[k] == s[k]
  {
    map k | k in s :: if k in ids then s[k].(consultorId := Some(c)) else s[k]
  }

  /** `updateMany({ where: { consultorId: c }, data: { consultorId: null } })`. */
  function UnlinkFromConsultor(s: Store, c: Id): (r: Store)
    ensures r.Keys == s.Keys
    ensures Roster(r, c) == {}
    ensures forall k :: k in s && s[k].consultorId == Some(c) ==> r[k] == s[k].(consultorId := None)
    ensures forall k :: k in s && s[k].consultorId != Some(c) ==> r[k] == s[k]
  {
    map k | k in s :: if s[k].consultorId == Some(c) then s[k].(consultorId := None) else s[k]
  }

  /** What the database does to rows that reference a deleted consultor.
      `SetNull` is the ORM's default for an optional relation;
      `NoForeignKey` leaves the reference dangling, as a table without a
      foreign key on `consultorId` does. */
  datatype OnDelete = SetNull | NoForeignKey

  /** `delete` of one row by id. */
  function Delete(s: Store, id: Id, action: OnDelete): (r: QueryResult)
    ensures r.RecordNotFound? <==> id !in s
    ensures r.Written? ==>
      && id in s && r.user == s[id]
      && r.store.Keys == s.Keys - {id}
      && forall k :: k in r.store ==>
           && r.store[k].(consultorId := s[k].consultorId) == s[k]
           && (r.store[k].consultorId == s[k].consultorId ||
               (s[k].consultorId == Some(id) && r.store[k].consultorId.None?))
    ensures !r.UniqueViolation? && !r.ValidationError?
  {
    if id !in s then RecordNotFound
    else
      var rest := map k | k in s && k != id :: s[k];
      match action
      case SetNull => Written(s[id], UnlinkFromConsultor(rest, id))
      case NoForeignKey => Written(s[id], rest)
  }
}

=== FILE: users_route.dfy ===
/** The write handlers of the users endpoint: POST creates a user and may hand
    it a roster of clients, PUT patches a user and may replace its roster,
    DELETE removes a user. Each is one atomic step from a store and a request
    to a reply and the next store. */
module UsersRoute {
  import opened Model
  import opened Prisma

  const RequiredFieldsMessage := "Nome, email e tipo são obrigatórios"
  const IdRequiredMessage := "ID do usuário é obrigatório"
  const CreateFailedMessage := "Erro ao criar usuário"
  const UpdateFailedMessage := "Erro ao atualizar usuário"
  const DeleteFailedMessage := "Erro ao deletar usuário"
  const DeletedMessage := "Usuário deletado com sucesso"

  /** The JSON body of a POST. */
  datatype PostBody = PostBody(data: UserData, clientIds: Field<seq<Id>>)

  /** The JSON body of a PUT. */
  datatype PutBody = PutBody(id: Field<Id>, data: UserData, clientIds: Field<seq<Id>>)

  /** POST asks for a roster when the body's role is the consultor spelling
      and it names at least one client. */
  predicate AssignsOnCreate(b: PostBody)
  {
    b.data.role == Given("CONSULTOR") && b.clientIds.Given? && |b.clientIds.value| > 0
  }

  /** PUT replaces the roster when the body's role is the consultor spelling
      and it carries a `clientIds` array, even an empty one. */
  predicate ReplacesOnUpdate(b: PutBody)
  {
    b.data.role == Given("CONSULTOR") && b.clientIds.Given?
  }

  /** POST: create the user (`newId` and `now` are what the database assigns),
      then point every listed row at it when it is a consultor. */
  function Post(s: Store, b: PostBody, newId: Id, now: int): (h: Handled)
    ensures h.response.BadRequest? <==> !Truthy(b.data.name) || !Truthy(b.data.email) || !Truthy(b.data.role)
    ensures h.response.BadRequest? ==> h.response.error == RequiredFieldsMessage
    ensures h.response.Conflict? <==>
      && Truthy(b.data.name) && Truthy(b.data.email) && NamesRole(b.data.role)
      && (newId in s || EmailUsed(s, b.data.email.value, None))
    ensures h.response.Conflict? ==> h.response.error == ConflictMessage
    ensures h.response.ServerError? <==>
      Truthy(b.data.name) && Truthy(b.data.email) && Truthy(b.data.role) && !NamesRole(b.data.role)
    ensures h.response.ServerError? ==> h.response.error == CreateFailedMessage
    ensures h.response.Ok? <==>
      && Truthy(b.data.name) && Truthy(b.data.email) && NamesRole(b.data.role)
      && newId !in s && !EmailUsed(s, b.data.email.value, None)
    ensures !h.response.Ok? ==> h.store == s
    ensures h.response.Ok? ==>
      && h.store.Keys == s.Keys + {newId}
      && h.response.body == Saved(newId, h.store[newId].(consultorId := None))
      && Carries(h.response.body.user, b.data)
      && h.response.body.user.createdAt == now
    ensures h.response.Ok? && EmailsUnique(s) ==> EmailsUnique(h.store)
  {
    if !Truthy(b.data.name) || !Truthy(b.data.email) || !Truthy(b.data.role) then
      Handled(BadRequest(RequiredFieldsMessage), s)
    else
      match Create(s, newId, b.data, now)
      case Written(u, created) =>
        var linked := if AssignsOnCreate(b) then LinkToConsultor(created, b.clientIds.value, newId) else created;
        Handled(Ok(Saved(newId, u)), linked)
      case UniqueViolation => Handled(Conflict(ConflictMessage), s)
      case _ => Handled(ServerError(CreateFailedMessage), s)
  }

  /** The roster replacement of PUT: clear every back-reference to `c`, then
      point the listed rows at `c` when the list is not empty. */
  function ReplaceRoster(s: Store, c: Id, ids: seq<Id>): (r: Store)
    ensures r.Keys == s.Keys
    ensures Roster(r, c) == (set k | k in s && k in ids)
    ensures forall k :: k in s ==> r[k].(consultorId := s[k].consultorId) == s[k]
    ensures forall k :: k in s && k !in ids && s[k].consultorId != Some(c) ==> r[k] == s[k]
    ensures forall k :: k in s && k !in ids && s[k].consultorId == Some(c) ==> r[k] == s[k].(consultorId := None)
  {
    var cleared := UnlinkFromConsultor(s, c);
    if |ids| > 0 then LinkToConsultor(cleared, ids, c) else cleared
  }

  /** PUT: patch the user, then replace its roster when asked to. */
  function Put(s: Store, b: PutBody): (h: Handled)
    ensures h.response.BadRequest? <==> !Truthy(b.id)
    ensures h.response.BadRequest? ==> h.response.error == IdRequiredMessage
    ensures Truthy(b.id) && b.id.value !in s ==> h == Handled(ServerError(UpdateFailedMessage), s)
    ensures h.response.Conflict? <==>
      && Truthy(b.id) && b.id.value in s && ValidPatch(b.data)
      && b.data.email.Given? && EmailUsed(s, b.data.email.value, Some(b.id.value))
    ensures h.response.Conflict? ==> h.response.error == ConflictMessage
    ensures h.response.ServerError? <==> Truthy(b.id) && (b.id.value !in s || !ValidPatch(b.data))
    ensures h.response.ServerError? ==> h.response.error == UpdateFailedMessage
    ensures h.response.Ok? <==>
      && Truthy(b.id) && b.id.value in s && ValidPatch(b.data)
      && !(b.data.email.Given? && EmailUsed(s, b.data.email.value, Some(b.id.value)))
    ensures !h.response.Ok? ==> h.store == s
    ensures h.response.Ok? ==>
      && h.store.Keys == s.Keys
      && h.response.body.Saved?
      && h.response.body.id == b.id.value
      && h.response.body.user.(consultorId := h.store[b.id.value].consultorId) == h.store[b.id.value]
      // the reply is the row as patched, before any roster change
      && Carries(h.response.body.user, b.data)
      && KeepsAbsent(h.response.body.user, s[b.id.value], b.data)
      && h.response.body.user.consultorId == s[b.id.value].consultorId
      && h.response.body.user.createdAt == s[b.id.value].createdAt
    ensures h.response.Ok? && !ReplacesOnUpdate(b) ==>
      forall k :: k in s && k != b.id.value ==> h.store[k] == s[k]
    ensures h.response.Ok? && EmailsUnique(s) ==> EmailsUnique(h.store)
  {
    if !Truthy(b.id) then
      Handled(BadRequest(IdRequiredMessage), s)
    else
      var id := b.id.value;
      match Update(s, id, b.data)
      case Written(u, updated) =>
        var next := if ReplacesOnUpdate(b) then ReplaceRoster(updated, id, b.clientIds.value) else updated;
        Handled(Ok(Saved(id, u)), next)
      case UniqueViolation => Handled(Conflict(ConflictMessage), s)
      case _ => Handled(ServerError(UpdateFailedMessage), s)
  }

  /** DELETE: `id` is the query parameter (`None` when it is missing). */
  function Delete(s: Store, id: Option<string>, action: OnDelete): (h: Handled)
    ensures h.response.BadRequest? <==> id.None? || id.value == ""
    ensures h.response.BadRequest? ==> h.response.error == IdRequiredMessage
    ensures !h.response.Ok? ==> h.store == s
    ensures id.Some? && id.value != "" && id.value !in s ==> h == Handled(ServerError(DeleteFailedMessage), s)
    ensures h.response.Ok? <==> id.Some? && id.value in s && id.value != ""
    ensures h.response.Ok? ==> id.value !in h.store && h.store.Keys == s.Keys - {id.value}
  {
    if id.None? || id.value == "" then
      Handled(BadRequest(IdRequiredMessage), s)
    else
      match Prisma.Delete(s, id.value, action)
      case Written(_, rest) => Handled(Ok(Deleted(DeletedMessage)), rest)
      case _ => Handled(ServerError(DeleteFailedMessage), s)
  }

  // ---------------------------------------------------------------------
  // Properties of the handlers

  /** A POST of a consultor with clients points every listed row at the new
      user, whatever its role or previous consultor; no other row changes.
      The new user itself is linked when its own id is listed. Its roster is
      the listed rows that exist, together with any row that already held
      the fresh id. */
  lemma PostAssignsRoster(s: Store, b: PostBody, newId: Id, now: int)
    requires Post(s, b, newId, now).response.Ok?
    requires AssignsOnCreate(b)
    ensures var s' := Post(s, b, newId, now).store;
      && (forall k :: k in s && k in b.clientIds.value ==> s'[k] == s[k].(consultorId := Some(newId)))
      && (forall k :: k in s && k !in b.clientIds.value ==> s'[k] == s[k])
      && (s'[newId].consultorId == Some(newId) <==> newId in b.clientIds.value)
      && Roster(s', newId) == (set k | k in s' && k in b.clientIds.value) + Roster(s, newId)
  {
  }

  /** A POST without a roster request only adds the new user, which points
      at no consultor; no reference to the fresh id appears. */
  lemma PostWithoutRosterOnlyAdds(s: Store, b: PostBody, newId: Id, now: int)
    requires Post(s, b, newId, now).response.Ok?
    requires !AssignsOnCreate(b)
    ensures var s' := Post(s, b, newId, now).store;
      && (forall k :: k in s ==> s'[k] == s[k])
      && s'[newId].consultorId.None?
      && Roster(s', newId) == Roster(s, newId)
  {
  }

  /** In a store whose references all resolve, nothing points at an id the
      store does not hold, so a fresh id starts with an empty roster. */
  lemma FreshIdHasNoRoster(s: Store, newId: Id)
    requires RefsResolve(s) && newId !in s
    ensures Roster(s, newId) == {}
  {
  }

  /** After a PUT that replaces the roster, the users pointing at the
      consultor are exactly the listed ids that exist. */
  lemma PutRosterIsExactlyListed(s: Store, b: PutBody)
    requires Put(s, b).response.Ok?
    requires ReplacesOnUpdate(b)
    ensures var s' := Put(s, b).store;
      forall k :: k in s' ==> (s'[k].consultorId == Some(b.id.value) <==> k in b.clientIds.value)
  {
    var s' := Put(s, b).store;
    var updated := Update(s, b.id.value, b.data).store;
    assert s' == ReplaceRoster(updated, b.id.value, b.clientIds.value);
    forall k | k in s'
      ensures s'[k].consultorId == Some(b.id.value) <==> k in b.clientIds.value
    {
      assert k in Roster(s', b.id.value) <==> k in b.clientIds.value;
    }
  }

  /** A PUT that replaces the roster leaves every row outside the listed ids
      and the old roster as it was (the patched user aside), and changes
      only `consultorId` on the rows it does touch. */
  lemma PutRosterFrame(s: Store, b: PutBody)
    requires Put(s, b).response.Ok?
    requires ReplacesOnUpdate(b)
    ensures var s', c := Put(s, b).store, b.id.value;
      && (forall k :: k in s && k != c && k !in b.clientIds.value && s[k].consultorId != Some(c) ==> s'[k] == s[k])
      && (forall k :: k in s && k != c ==> s'[k].(consultorId := s[k].consultorId) == s[k])
      && (forall k :: k in s && k !in b.clientIds.value && s[k].consultorId == Some(c) ==> s'[k].consultorId.None?)
  {
  }

  /** An empty `clientIds` on a consultor PUT empties its roster: every row
      that pointed at it now points at nothing. */
  lemma PutEmptyListClearsRoster(s: Store, b: PutBody)
    requires Put(s, b).response.Ok?
    requires b.data.role == Given("CONSULTOR") && b.clientIds == Given([])
    ensures Roster(Put(s, b).store, b.id.value) == {}
    ensures forall k :: k in s && s[k].consultorId == Some(b.id.value) ==> Put(s, b).store[k].consultorId.None?
  {
  }

  /** A PUT whose body role is not the consultor spelling, or that omits
      `clientIds`, changes no `consultorId` at all. */
  lemma PutWithoutRosterKeepsLinks(s: Store, b: PutBody)
    requires Put(s, b).response.Ok?
    requires !ReplacesOnUpdate(b)
    ensures var s' := Put(s, b).store;
      forall k :: k in s ==> s'[k].consultorId == s[k].consultorId
  {
  }

  /** POST keeps every consultor reference pointing at an existing row. */
  lemma PostKeepsRefsResolved(s: Store, b: PostBody, newId: Id, now: int)
    requires RefsResolve(s)
    ensures RefsResolve(Post(s, b, newId, now).store)
  {
    var h := Post(s, b, newId, now);
    if h.response.Ok? {
      forall k | k in h.store && h.store[k].consultorId.Some?
        ensures h.store[k].consultorId.value in h.store
      {
        if k in s && h.store[k].consultorId == s[k].consultorId {
          assert s[k].consultorId.value in s;
        }
      }
    }
  }

  /** Replacing the roster of an existing consultor keeps every reference
      resolved: each row ends up pointing at `c`, at nothing, or where it
      pointed before. */
  lemma ReplaceRosterKeepsRefsResolved(s: Store, c: Id, ids: seq<Id>)
    requires RefsResolve(s) && c in s
    ensures RefsResolve(ReplaceRoster(s, c, ids))
  {
    var cleared := UnlinkFromConsultor(s, c);
    forall k | k in cleared && cleared[k].consultorId.Some?
      ensures cleared[k].consultorId.value in cleared
    {
      if s[k].consultorId != Some(c) {
        assert cleared[k] == s[k];
      }
    }
    if |ids| > 0 {
      var linked := LinkToConsultor(cleared, ids, c);
      forall k | k in linked && linked[k].consultorId.Some?
        ensures linked[k].consultorId.value in linked
      {
        if k !in ids {
          assert linked[k] == cleared[k];
        }
      }
    }
  }

  /** PUT keeps every consultor reference pointing at an existing row. */
  lemma PutKeepsRefsResolved(s: Store, b: PutBody)
    requires RefsResolve(s)
    ensures RefsResolve(Put(s, b).store)
  {
    if Put(s, b).response.Ok? {
      var id := b.id.value;
      var updated := Update(s, id, b.data).store;
      forall k | k in updated && updated[k].consultorId.Some?
        ensures updated[k].consultorId.value in updated
      {
        assert updated[k].consultorId == s[k].consultorId;
      }
      if ReplacesOnUpdate(b) {
        ReplaceRosterKeepsRefsResolved(updated, id, b.clientIds.value);
      }
    }
  }

  /** Under `SetNull`, DELETE keeps every consultor reference pointing at an
      existing row. */
  lemma DeleteSetNullKeepsRefsResolved(s: Store, id: Option<string>)
    requires RefsResolve(s)
    ensures RefsResolve(Delete(s, id, SetNull).store)
  {
    var h := Delete(s, id, SetNull);
    if h.response.Ok? {
      forall k | k in h.store && h.store[k].consultorId.Some?
        ensures h.store[k].consultorId.value in h.store
      {
        assert h.store[k].consultorId == s[k].consultorId;
        assert s[k].consultorId.value in s;
      }
    }
  }
}

=== FILE: usuarios_page.dfy ===
/** The user form: which clients it offers, how ticking a client toggles the
    selection, and the body it posts to the users endpoint. */
module UsuariosPage {
  import opened Model
  import opened Collections
  import opened Prisma
  import opened UsersRoute
  import opened ClientsRoute
  import opened IntParsing

  // ---------------------------------------------------------------------
  // The clients the form offers

  /** `client.consultorId` is truthy: present, not null, not empty. */
  predicate HasConsultor(row: ClientRow)
  {
    row.user.consultorId.Some? && row.user.consultorId.value != ""
  }

  function WithoutConsultor(rows: seq<ClientRow>): (r: seq<ClientRow>)
    ensures forall row :: row in r <==> row in rows && !HasConsultor(row)
    ensures |r| <= |rows|
  {
    if rows == [] then []
    else (if HasConsultor(rows[0]) then [] else [rows[0]]) + WithoutConsultor(rows[1..])
  }

  /** The listing's `clients` field, or nothing when the reply has none (an
      error reply), filtered to the clients without a consultor. */
  function Offered(clients: Option<seq<ClientRow>>): (r: seq<ClientRow>)
    ensures clients.None? ==> r == []
    ensures clients.Some? ==> forall row :: row in r <==> row in clients.value && !HasConsultor(row)
  {
    match clients
    case None => []
    case Some(rows) => WithoutConsultor(rows)
  }

  /** The clients of the store whose `consultorId` is null or empty. A client
      whose `consultorId` names a deleted row or a row that is not a consultor
      is not among them: the form never offers it again. */
  function UnlinkedClientIds(s: Store): set<Id>
  {
    set k | k in s && s[k].role == Client && (s[k].consultorId.None? || s[k].consultorId == Some(""))
  }

  /** Fed the reply of the unfiltered listing, the form offers exactly the
      clients whose `consultorId` is null or empty. */
  lemma OfferedAreUnlinked(s: Store, rows: seq<ClientRow>)
    requires IdsOf(rows) == Selected(s, ClientQuery(None, None, None))
    requires forall i :: 0 <= i < |rows| ==> rows[i].id in s && rows[i] == Row(s, rows[i].id)
    ensures IdsOf(Offered(Some(rows))) == UnlinkedClientIds(s)
  {
    var offered := Offered(Some(rows));
    NoParametersSelectsAllClients(s);
    forall k | k in UnlinkedClientIds(s)
      ensures k in IdsOf(offered)
    {
      assert k in IdsOf(rows);
      var i :| 0 <= i < |rows| && rows[i].id == k;
      assert rows[i] in offered;
      var j :| 0 <= j < |offered| && offered[j] == rows[i];
    }
    forall k | k in IdsOf(offered)
      ensures k in UnlinkedClientIds(s)
    {
      var j :| 0 <= j < |offered| && offered[j].id == k;
      assert offered[j] in rows && !HasConsultor(offered[j]);
      var i :| 0 <= i < |rows| && rows[i] == offered[j];
      assert k in IdsOf(rows);
      assert s[k].role == Client;
    }
  }

  // ---------------------------------------------------------------------
  // Ticking a client

  /** `filter((id) => id !== x)`: every occurrence of `x` goes, every other
      element stays, and a list without `x` comes back unchanged. */
  function Without(xs: seq<Id>, x: Id): (r: seq<Id>)
    ensures forall y :: y in r <==> y in xs && y != x
    ensures x !in xs ==> r == xs
  {
    if xs == [] then []
    else (if xs[0] == x then [] else [xs[0]]) + Without(xs[1..], x)
  }

  /** Removing never introduces a repetition. */
  lemma {:induction false} WithoutDistinct(xs: seq<Id>, x: Id)
    ensures Distinct(xs) ==> Distinct(Without(xs, x))
  {
    if xs != [] && Distinct(xs) {
      var tail := xs[1..];
      assert Distinct(tail);
      WithoutDistinct(tail, x);
      var r := Without(xs, x);
      if xs[0] != x {
        assert xs[0] !in tail;
        assert r == [xs[0]] + Without(tail, x);
        assert xs[0] !in Without(tail, x);
      }
    }
  }

  /** `handleClientToggle`: a selected client is deselected, any other is
      appended to the selection. */
  function Toggle(xs: seq<Id>, x: Id): (r: seq<Id>)
    ensures x in r <==> x !in xs
    ensures forall y :: y != x ==> (y in r <==> y in xs)
    ensures Distinct(xs) ==> Distinct(r)
  {
    if x in xs then WithoutDistinct(xs, x); Without(xs, x) else xs + [x]
  }

  /** Ticking the same client twice selects the same clients, and restores
      the very list when it was not selected at first. */
  lemma ToggleTwice(xs: seq<Id>, x: Id)
    ensures forall y :: y in Toggle(Toggle(xs, x), x) <==> y in xs
    ensures x !in xs ==> Toggle(Toggle(xs, x), x) == xs
  {
    if x !in xs {
      var ys := xs + [x];
      assert Without(ys, x) == xs by {
        WithoutAppend(xs, x);
      }
    }
  }

  /** Removing `x` from a list without `x` followed by `x` leaves the list. */
  lemma {:induction false} WithoutAppend(xs: seq<Id>, x: Id)
    requires x !in xs
    ensures Without(xs + [x], x) == xs
  {
    if xs == [] {
      assert [x][1..] == [];
    } else {
      assert (xs + [x])[1..] == xs[1..] + [x];
      WithoutAppend(xs[1..], x);
      assert xs == [xs[0]] + xs[1..];
    }
  }

  // ---------------------------------------------------------------------
  // Submitting the form

  /** The form's state; every input holds the text as typed (the phone, CPF
      and CEP inputs hold their masked text). */
  datatype Form = Form(
    tipo: string,
    nome: string,
    telefone: string,
    email: string,
    idade: string,
    cpf: string,
    cep: string,
    estado: string,
    endereco: string,
    complemento: string,
    clientesVinculados: seq<Id>)

  /** The address sent: the street, then `", "` and the complement when one
      was typed. */
  function Address(endereco: string, complemento: string): string
  {
    endereco + (if complemento != "" then ", " + complemento else "")
  }

  /** The age sent: `null` for an empty input, otherwise `parseInt` of it,
      whose NaN is serialised as `null`. */
  function Age(idade: string): Field<int>
  {
    if idade == "" then Null
    else match ParseInt(idade)
      case None => Null
      case Some(v) => Given(v)
  }

  /** The body `handleSubmit` posts. The CEP and the state are not sent. */
  function Submission(f: Form): PostBody
  {
    PostBody(
      UserData(Given(f.nome), Given(f.email), Given(f.telefone), Given(f.cpf),
               Age(f.idade), Given(Address(f.endereco, f.complemento)), Given(f.tipo)),
      Given(f.clientesVinculados))
  }

  /** Whatever the CEP and state inputs hold, the same body is posted. */
  lemma SubmissionIgnoresCepAndEstado(f: Form, cep: string, estado: string)
    ensures Submission(f.(cep := cep, estado := estado)) == Submission(f)
  {
  }

  /** An age typed as a number, possibly with white space and a sign in front
      and text after it (`"28 anos"`), is sent as that number; text without
      any digit is sent as `null`. */
  lemma AgeReadsTypedNumber(space: string, negative: bool, n: nat, rest: string)
    requires forall i :: 0 <= i < |space| ==> IsSpace(space[i])
    requires rest == [] || (!('0' <= rest[0] <= '9') && (n == 0 ==> rest[0] != 'x' && rest[0] != 'X'))
    ensures Age(space + (if negative then "-" else "") + Decimal(n) + rest) == Given(if negative then -(n as int) else n)
  {
    ParseDecimal(space, negative, n, rest);
  }

  lemma AgeWithoutDigitIsNull(idade: string)
    requires forall i :: 0 <= i < |idade| ==> !('0' <= idade[i] <= '9')
    ensures Age(idade) == Null
  {
    NoDigitIsNaN(idade);
  }

  /** The endpoint answers with the required-fields 400 exactly when the
      name, the email or the type is left empty. */
  lemma SubmissionRefusedIff(s: Store, f: Form, newId: Id, now: int)
    ensures Post(s, Submission(f), newId, now).response == BadRequest(RequiredFieldsMessage) <==>
      f.nome == "" || f.email == "" || f.tipo == ""
  {
  }

  /** The status the endpoint sends for the posted form: 400 when a required
      input is empty or, with a valid type, when the email or the generated id
      is taken; 500 when the type is not a role; 200 otherwise. */
  lemma SubmissionStatus(s: Store, f: Form, newId: Id, now: int)
    ensures var code := Status(Post(s, Submission(f), newId, now).response);
      && (code == 400 <==>
            || f.nome == "" || f.email == "" || f.tipo == ""
            || (NamesRole(Given(f.tipo)) && (newId in s || EmailUsed(s, f.email, None))))
      && (code == 500 <==> f.nome != "" && f.email != "" && f.tipo != "" && !NamesRole(Given(f.tipo)))
      && (code == 200 <==>
            && f.nome != "" && f.email != "" && NamesRole(Given(f.tipo))
            && newId !in s && !EmailUsed(s, f.email, None))
  {
  }

  /** The form asks for a roster exactly when it creates a consultor with at
      least one client ticked. */
  lemma SubmissionAssignsIff(f: Form)
    ensures AssignsOnCreate(Submission(f)) <==> f.tipo == "CONSULTOR" && |f.clientesVinculados| > 0
  {
  }

  /** A created user holds what was typed: the texts as they are, the address
      with its complement, the age as read, and, for a consultor, the ticked
      clients that exist as its roster (together with any row that already
      held the fresh id, which `FreshIdHasNoRoster` rules out when every
      reference resolves). */
  lemma SubmissionStored(s: Store, f: Form, newId: Id, now: int)
    requires Post(s, Submission(f), newId, now).response.Ok?
    ensures var s' := Post(s, Submission(f), newId, now).store;
      && newId in s'
      && s'[newId].name == f.nome && s'[newId].email == f.email
      && s'[newId].telefone == Some(f.telefone) && s'[newId].cpf == Some(f.cpf)
      && s'[newId].endereco == Some(Address(f.endereco, f.complemento))
      && (s'[newId].idade.Some? <==> Age(f.idade).Given?)
      && (s'[newId].idade.Some? ==> s'[newId].idade.value == Age(f.idade).value)
      && RoleName(s'[newId].role) == f.tipo
      && (f.tipo == "CONSULTOR" && |f.clientesVinculados| > 0 ==>
            Roster(s', newId) == (set k | k in s' && k in f.clientesVinculados) + Roster(s, newId))
  {
    var b := Submission(f);
    if AssignsOnCreate(b) {
      PostAssignsRoster(s, b, newId, now);
    }
  }
}
